=== FILE: README.md ===
# optional_take, modelled in Dafny

The crate provides `OptionalTake<T>`. It is a byte reader that wraps another
reader and keeps an *optional* limit on how many bytes it may still hand out.
The limit can be set, replaced or cleared at any time, and the wrapped reader
is never rebuilt or lost. Without a limit the adapter holds the reader itself.
With a limit it holds the reader inside the standard library's `io::Take`.
The adapter keeps its variant in an `Option` slot, so that `set_limit` can move
the reader from one variant into the other.

The Dafny project models this adapter as pure functions over immutable values.

- `types.dfy` (`IoTypes`): the shared vocabulary. It has bytes, `u64`,
  `Option` and `io::Result`. It also has `Device`, which says what the device
  behind the wrapped reader does on one call: it hands over everything that
  was asked for, it hands over at most `cap` bytes (a short read), or it fails.
- `cursor.dfy` (`Cursors`): the wrapped reader `T`. It is an in-memory source
  that keeps the bytes already consumed and the bytes still to come. Its
  `Read`, `FillBuf` and `Consume` take the `Device` of the call as a
  parameter.
- `take.dfy` (`Takes`): `io::Take`, following the standard library's
  implementation of it. Its documentation promises only part of this: a
  `Take` hands out at most `limit` bytes and then returns `Ok(0)`, and a
  failed read does not count against the limit. The rest comes from the
  implementation:
  - at limit zero, `read` returns `Ok(0)` without calling the wrapped reader;
  - at limit zero, `fill_buf` returns an empty view, also without calling it;
  - otherwise `read` passes on a buffer cut to `limit` bytes and subtracts
    what it gets;
  - `fill_buf` cuts the wrapped reader's view to `limit` bytes;
  - `consume` first cuts its amount to `limit`.
- `io.dfy` (`Io`): the adapter itself. The functions there are `from_read`,
  `limit`, `set_limit`, `into_inner`, `get_ref`, `is_read`, `is_take`,
  `as_mut_take`, `Read::read`, `BufRead::fill_buf`, `BufRead::consume` and
  `Takable::take_optional`. The Rust variants `OptionalTakeImpl::Read` and
  `OptionalTakeImpl::Take` are called `Unbounded` and `Bounded` here. The
  `Option` slot is modelled as it is. `Valid` says the slot is filled, which
  is exactly what every `unwrap` of it needs. The `unreachable!()` arms of
  `set_limit` are `assert false` branches that the verifier shows cannot be
  reached.
- `properties.dfy` (`Properties`): properties of single calls.
- `traces.dfy` (`Traces`): properties of whole sessions of calls.
- `doc_example.dfy` (`DocExample`): the crate's documentation example.

The standard library's `io::Take` and the wrapped reader are not part of the
crate's source, so the `Takes` and `Cursors` members have no rows below. Their
contracts describe the behaviour the adapter relies on.

## Model

| member | source | states |
|---|---|---|
| Io.SetLimit | src/io.rs:36-64 | The slot is filled afterwards. `limit()` then returns exactly the limit that was given, so a new limit replaces the old one and is never added to it. `get_ref()` returns the same reader as before, in all four cases (bounded or unbounded, to `Some` or to `None`). |
| Io.FromRead | src/io.rs:20-27 | The new adapter has a filled slot, reports the limit it was given, and wraps exactly the given reader. |
| Io.TakeOptional | src/io.rs:159-166 | `take_optional` builds the same adapter as `from_read`. |
| Io.IsRead | src/io.rs:89-94 | Holds only when the slot is filled. With the slot filled, exactly one of `is_read` and `is_take` holds. |
| Io.IsTake | src/io.rs:96-101 | Holds only when the slot is filled. With `Io.IsRead`, exactly one of the two holds on a filled slot. |
| Io.Limit | src/io.rs:29-34 | `None` exactly when the adapter is unbounded. `Some` exactly when it is bounded, and then the value is the limit of the `io::Take` in the slot. `ExactlyOneVariant` and `StateIsLimitAndReader` state its relation to the other accessors. |
| Io.GetRef | src/io.rs:73-78 | In the unbounded variant, the reader the slot holds. In the bounded variant, the reader inside the slot's `io::Take`. |
| Io.IntoInner | src/io.rs:66-71 | Returns the reader that `get_ref` shows. Clearing the limit leaves exactly that reader, unbounded. Wrapping it again with `from_read` and the old limit rebuilds the same adapter. |
| Io.AsMutTake | src/io.rs:103-108 | Finds an `io::Take` exactly when the slot holds the bounded variant, and that `io::Take` is the one in the slot. |
| Io.Read | src/io.rs:111-119 | Without a limit, the result and the new reader are exactly those of the wrapped reader's own `read`. With a positive limit `m`, the result and the new reader are exactly those of the wrapped reader's `read` into `min(len, m)` bytes, errors included. A successful bounded read delivers at most `min(len, m)` bytes, leaves the limit at `m` minus the count, and advances the reader past exactly the delivered bytes. At limit 0 it returns `Ok` with no bytes and changes nothing, even when the reader would fail. A failure changes nothing. The mode never changes and no byte is lost. |
| Io.FillBuf | src/io.rs:122-130 | The view is a prefix of the unread bytes. Without a limit it is the wrapped reader's own view. With a positive limit it is the wrapped reader's view cut to `limit` bytes, and the wrapped reader's error is passed on. At limit 0 it is empty. |
| Io.Consume | src/io.rs:132-139 | Without a limit, the reader skips as its own `consume` would. With limit `m`, it asks the reader to skip `min(amt, m)` bytes, and the limit drops by `min(amt, m)`. The reader skips fewer when fewer remain. The mode and the reader's contents do not change. |
| Properties.StateIsLimitAndReader | src/io.rs:12-17 | Two adapters with the same limit and the same wrapped reader are equal, so nothing else about an adapter can be observed. |
| Properties.SetLimitLastWins | src/io.rs:40-43 | Two `set_limit` calls in a row equal the second one alone. |
| Properties.SetLimitIdempotent | src/io.rs:36-64 | Setting the same limit twice equals setting it once. |
| Properties.SetCurrentLimitIsNoop | src/io.rs:53-62 | Setting the limit the adapter already has changes nothing. In particular, `set_limit(None)` on an unbounded adapter changes nothing. |
| Properties.ExactlyOneVariant | src/io.rs:88-108 | With the slot filled, exactly one of `is_read` and `is_take` holds. `limit()` is `None` exactly when `is_read` holds. `as_mut_take` succeeds exactly when the adapter is bounded. With the slot empty, both tests fail. |
| Properties.IntoInnerIsGetRef | src/io.rs:66-78 | In both variants, `into_inner` returns the reader that `get_ref` shows. Clearing the limit first does not change that reader. |
| Properties.FillThenConsumeIsRead | src/io.rs:111-139 | `fill_buf` followed by `consume(k)`, with `k` no larger than the view, leaves the same limit and reader as a `read` of `k` bytes. That read delivers exactly the first `k` bytes of the view. |
| Traces.Run | src/io.rs:36-139 | After any series of `set_limit`, `read`, `fill_buf` and `consume` calls, the slot is filled, the reader holds the same bytes, and its position has only moved forward. |
| Traces.ReadAll | src/io.rs:111-119 | Over any series of reads, one result is recorded per read, and the bytes delivered are exactly the bytes the reader moved past. Under limit `n`, the reads deliver at most `n` bytes in total, and the limit left is `n` minus that total. |
| Traces.ExhaustedStaysExhausted | src/io.rs:111-119 | Once the limit is 0, every read of any further series returns `Ok` with no bytes, even on a failing device, and the series delivers nothing and changes nothing. |
| Traces.UnboundedIsPassthrough | src/io.rs:113-118 | Without a limit, each read of any series returns exactly what the same read on the bare reader returns, errors included. The series delivers the same bytes and leaves the reader in the same place. |
| Traces.ClearedLimitIsPassthrough | src/io.rs:53-61 | After `set_limit(None)`, however many reads came before under a limit, each later read returns exactly what the same read on the bare reader returns, errors included. The later reads deliver the same bytes and end at the same position. |
| Traces.NewLimitIsNotCumulative | src/io.rs:41-43 | A limit set after earlier reads is the full new budget: bytes already read are not subtracted from it. |
| Traces.IntoInnerAfterReads | src/io.rs:66-71 | After any series of reads, `into_inner` returns the original reader with the same bytes. Its position has moved past exactly the delivered bytes. |
| DocExample.HelloWorld | src/lib.rs:17-34 | For `"hello, world"` with `Some(5)`: a read into 10 bytes gives `"hello"`, the next read gives 0 bytes, and after `set_limit(None)` a read gives `", world"`. |
| DocExample.ZeroLimitNeverTouchesReader | src/io.rs:111-119 | With limit `Some(0)`, a read returns `Ok` with no bytes and changes nothing, even when the reader would fail. |
| DocExample.UnboundedReadsEverything | src/io.rs:113-118 | Without a limit, a read larger than the source returns the whole source and no error. |

## Left out

- The `Debug` implementations (src/io.rs:142-157) only format values, so there is nothing to model.
- `get_mut` (src/io.rs:80-85) lets the caller move the reader without the limit noticing. No contract can describe the reader after that, so it is not modelled.
- Real readers (files, sockets, blocking) are replaced by the in-memory `Cursor`. Short reads and failures are modelled by the `Device` parameter of each call.
- Io.Read: the model returns the delivered bytes and their count, but not the caller's buffer. Buffer bytes past the count are not modelled.
- Io.FillBuf: the wrapped reader's `fill_buf` is modelled as not changing the reader, because the in-memory source has no separate buffer. A real `BufRead` may refill an internal buffer at that point, and that refill is not modelled.
- Cursors.Consume: when asked to skip more bytes than remain, the model skips all of them. It clamps to what is left, as `BufReader` clamps to its buffer. A slice reader would panic instead. The `BufRead` contract forbids such a call in any case.
- Buffer lengths are unbounded naturals instead of `usize`. The limit is kept below 2^64 as a `u64`, and no subtraction can go below zero.
- The default methods of `Read` and `BufRead` that the adapter does not override are not modelled. These include `read_exact`, `read_to_end` and `read_line`.
- Rust's move mechanics (`Option::take`) are modelled only as the requirement that the slot is filled whenever it is observed.
- Io.Consume: one might expect `consume(n)` to lower the limit by exactly `n`. The code passes `n` to `io::Take::consume`, which first cuts `n` down to the limit. The model follows the code, so the limit drops by `min(n, limit)`.

=== FILE: cursor.dfy ===
/** The reader the adapter wraps, modelled as an in-memory byte source. It
    stands for the type parameter `T` of `OptionalTake<T>`: a `Read` for the
    `read` path and a `BufRead` for the `fill_buf`/`consume` path. */
module Cursors {
  import opened IoTypes

  /** An in-memory reader: the bytes already handed out and the bytes still
      to come. Its position is the length of `consumed`. */
  datatype Cursor = Cursor(consumed: seq<byte>, rest: seq<byte>) {

    /** Everything the source holds, read or not. */
    function Data(): seq<byte> {
      consumed + rest
    }

    function Position(): nat {
      |consumed|
    }
  }

  /** A reader positioned at the start of `data`. */
  function FromBytes(data: seq<byte>): (c: Cursor)
    ensures c.Data() == data
    ensures c.Position() == 0
  {
    Cursor([], data)
  }

  /** `c'` follows `c` by exactly `taken`: those bytes moved from the front of
      what was left to the end of what was consumed, nothing lost or repeated. */
  predicate Advances(c: Cursor, c': Cursor, taken: seq<byte>) {
    c'.consumed == c.consumed + taken && c.rest == taken + c'.rest
  }

  /** Moving past `x` and then past `y` is moving past `x + y`. */
  lemma AdvancesCompose(a: Cursor, b: Cursor, c: Cursor, x: seq<byte>, y: seq<byte>)
    requires Advances(a, b, x) && Advances(b, c, y)
    ensures Advances(a, c, x + y)
  {
    assert a.rest == x + (y + c.rest) == (x + y) + c.rest;
    assert c.consumed == (a.consumed + x) + y == a.consumed + (x + y);
  }

  /** Standing still is moving past nothing. */
  lemma AdvancesNothing(c: Cursor)
    ensures Advances(c, c, [])
  {
    assert c.consumed + [] == c.consumed;
    assert [] + c.rest == c.rest;
  }

  /** How many bytes a working device hands over for a request of `len`. */
  function Supplied(device: Device, len: nat): (n: nat)
    requires !device.Broken?
    ensures n <= len
  {
    match device
    case Whole => len
    case Short(cap) => Min(len, cap)
  }

  /** `Read::read` of the wrapped reader into a buffer of `len` bytes: a
      failure leaves the reader as it was; otherwise it delivers a prefix of
      what is left, at most `len` bytes, and advances past exactly those. */
  function Read(c: Cursor, len: nat, device: Device): (r: Outcome<Cursor, seq<byte>>)
    ensures r.result.Err? <==> device.Broken?
    ensures r.result.Err? ==> r.next == c && r.result.error == device.error
    ensures r.result.Ok? ==> |r.result.value| <= len && Advances(c, r.next, r.result.value)
    ensures r.next.Data() == c.Data()
    ensures device.Whole? ==> r.result.Ok? && |r.result.value| == Min(len, |c.rest|)
  {
    match device
    case Broken(e) => Outcome(c, Err(e))
    case _ =>
      var n := Min(Supplied(device, len), |c.rest|);
      assert c.rest == c.rest[..n] + c.rest[n..];
      Outcome(Cursor(c.consumed + c.rest[..n], c.rest[n..]), Ok(c.rest[..n]))
  }

  /** `BufRead::fill_buf` of the wrapped reader: a view of the bytes it holds
      ready, taken from the front of what is left. The in-memory source keeps
      no separate buffer, so filling does not change it. */
  function FillBuf(c: Cursor, device: Device): (r: IoResult<seq<byte>>)
    ensures r.Err? <==> device.Broken?
    ensures r.Ok? ==> r.value <= c.rest
    ensures device.Whole? ==> r == Ok(c.rest)
  {
    match device
    case Broken(e) => Err(e)
    case Whole => Ok(c.rest)
    case Short(cap) => Ok(c.rest[..Min(cap, |c.rest|)])
  }

  /** `BufRead::consume` of the wrapped reader: skips `amt` bytes, or all that
      are left when fewer remain. */
  function Consume(c: Cursor, amt: nat): (c': Cursor)
    ensures c'.Data() == c.Data()
    ensures c'.Position() == Min(c.Position() + amt, |c.Data()|)
    ensures Advances(c, c', c.rest[..Min(amt, |c.rest|)])
  {
    var n := Min(amt, |c.rest|);
    assert c.rest == c.rest[..n] + c.rest[n..];
    Cursor(c.consumed + c.rest[..n], c.rest[n..])
  }
}

=== FILE: doc_example.dfy ===
/** The usage example in the crate documentation, replayed on the model. */
module DocExample {
  import opened IoTypes
  import Cursors
  import opened Io

  /** The bytes of an ASCII string. */
  function Ascii(s: string): (bytes: seq<byte>)
    requires forall i :: 0 <= i < |s| ==> s[i] < 128 as char
    ensures |bytes| == |s|
  {
    seq(|s|, i requires 0 <= i < |s| => s[i] as int)
  }

  /** `b"hello, world".take_optional(Some(5))`; a read into a 10-byte buffer
      gives the 5 bytes "hello"; the next read gives 0 bytes; after
      `set_limit(None)` a read into the same buffer gives the 7 bytes
      ", world". The source is an in-memory slice, so its device is `Whole`. */
  lemma HelloWorld()
    ensures
      var s0 := TakeOptional(Cursors.FromBytes(Ascii("hello, world")), Some(5));
      var r1 := Read(s0, 10, Whole);
      var r2 := Read(r1.next, 10, Whole);
      var r3 := Read(SetLimit(r2.next, None), 10, Whole);
      && r1.result == Ok(Ascii("hello"))
      && r2.result == Ok([])
      && r3.result == Ok(Ascii(", world"))
  {
    var text := Ascii("hello, world");
    var s0 := TakeOptional(Cursors.FromBytes(text), Some(5));
    var r1 := Read(s0, 10, Whole);
    assert r1.result == Ok(text[..5]);
    assert text[..5] == Ascii("hello");
    var r2 := Read(r1.next, 10, Whole);
    assert Limit(r2.next) == Some(0);
    var s3 := SetLimit(r2.next, None);
    assert GetRef(s3).rest == text[5..];
    assert text[5..] == Ascii(", world");
    assert |GetRef(s3).rest| == 7;
    assert GetRef(s3).rest[..7] == GetRef(s3).rest;
  }

  /** With a limit of zero the first read returns 0 bytes without asking the
      wrapped reader, so even a reader that would fail is never touched. */
  lemma ZeroLimitNeverTouchesReader(read: Cursors.Cursor, len: nat, error: IoError)
    ensures
      var s := FromRead(read, Some(0));
      Read(s, len, Broken(error)) == Outcome(s, Ok([]))
  {
  }

  /** Without a limit, a read larger than the source yields the whole source
      and no error. */
  lemma UnboundedReadsEverything(data: seq<byte>, len: nat)
    requires len >= |data|
    ensures Read(FromRead(Cursors.FromBytes(data), None), len, Whole).result == Ok(data)
  {
    assert data[..|data|] == data;
  }
}

=== FILE: io.dfy ===
/** The `OptionalTake` adapter: a reader with an optional byte limit that can
    be set, replaced or cleared at any time without giving up the wrapped
    reader. Without a limit it holds the reader itself (`Unbounded`); with one
    it holds the reader inside an `io::Take` (`Bounded`). The variant sits in an
    `Option` slot so that a transition can move the reader out of one variant
    and into the other. */
module Io {
  import opened IoTypes
  import Cursors
  import Takes

  /** `OptionalTakeImpl::Read` is `Unbounded` here and `OptionalTakeImpl::Take`
      is `Bounded`. */
  datatype OptionalTakeImpl =
    | Unbounded(read: Cursors.Cursor)
    | Bounded(take: Takes.Take)

  datatype OptionalTake = OptionalTake(slot: Option<OptionalTakeImpl>)

  /** The slot holds a variant, so every `unwrap` of it succeeds. It is empty
      only in the middle of `set_limit`, between taking the old variant out
      and storing the new one. */
  predicate Valid(s: OptionalTake) {
    s.slot.Some?
  }

  /** `is_read`: the slot holds the unbounded variant. With the slot filled,
      the adapter is in exactly one of the two variants. */
  function IsRead(s: OptionalTake): (r: bool)
    ensures r ==> Valid(s)
    ensures Valid(s) ==> (r != IsTake(s))
  {
    s.slot.Some? && s.slot.value.Unbounded?
  }

  /** `is_take`: the slot holds the bounded variant. */
  function IsTake(s: OptionalTake): (r: bool)
    ensures r ==> Valid(s)
  {
    s.slot.Some? && s.slot.value.Bounded?
  }

  /** `as_mut_take`: the `io::Take` in the slot, when there is one. */
  function AsMutTake(s: OptionalTake): (r: Option<Takes.Take>)
    ensures r.Some? <==> IsTake(s)
    ensures r.Some? ==> s.slot == Some(OptionalTakeImpl.Bounded(r.value))
  {
    match s.slot
    case Some(Bounded(take)) => Some(take)
    case _ => None
  }

  /** `limit`: no limit in the `Unbounded` variant, the `io::Take`'s limit
      in the `Bounded` variant. */
  function Limit(s: OptionalTake): (r: Option<U64>)
    requires Valid(s)
    ensures r.None? <==> IsRead(s)
    ensures r.Some? <==> IsTake(s)
    ensures r.Some? ==> r.value == AsMutTake(s).value.limit
  {
    match s.slot.value
    case Unbounded(_) => None
    case Bounded(take) => Some(take.limit)
  }

  /** `get_ref`: the wrapped reader, in either variant. */
  function GetRef(s: OptionalTake): (r: Cursors.Cursor)
    requires Valid(s)
    ensures IsRead(s) ==> s.slot == Some(OptionalTakeImpl.Unbounded(r))
    ensures IsTake(s) ==> r == AsMutTake(s).value.inner
  {
    match s.slot.value
    case Unbounded(read) => read
    case Bounded(take) => take.inner
  }

  /** `into_inner`: gives the wrapped reader back, dropping the limit. It is
      the reader `get_ref` shows; clearing the limit leaves exactly that reader
      unbounded, and wrapping it again with the old limit rebuilds the adapter. */
  function IntoInner(s: OptionalTake): (r: Cursors.Cursor)
    requires Valid(s)
    ensures SetLimit(s, None) == OptionalTake(Some(OptionalTakeImpl.Unbounded(r)))
    ensures FromRead(r, Limit(s)) == s
  {
    GetRef(s)
  }

  /** `set_limit`: the new limit replaces the old one outright, and the
      wrapped reader moves unchanged between the two variants. */
  function SetLimit(s: OptionalTake, limit: Option<U64>): (r: OptionalTake)
    requires Valid(s)
    ensures Valid(r)
    ensures Limit(r) == limit
    ensures GetRef(r) == GetRef(s)
  {
    match limit
    case Some(l) =>
      if IsTake(s) then
        OptionalTake(Some(OptionalTakeImpl.Bounded(AsMutTake(s).value.(limit := l))))
      else
        // `self.0.take()` empties the slot; the reader it held is wrapped in
        // an `io::Take` and stored back.
        var read := match s.slot.value
          case Unbounded(read) => read
          case Bounded(_) => assert false; Cursors.Cursor([], []);
        OptionalTake(Some(OptionalTakeImpl.Bounded(Takes.Take(read, l))))
    case None =>
      if !IsRead(s) then
        var read := match s.slot.value
          case Bounded(take) => take.inner
          case Unbounded(_) => assert false; Cursors.Cursor([], []);
        OptionalTake(Some(OptionalTakeImpl.Unbounded(read)))
      else
        s
  }

  /** `from_read`: wraps `read` unbounded, then applies `limit`. */
  function FromRead(read: Cursors.Cursor, limit: Option<U64>): (r: OptionalTake)
    ensures Valid(r)
    ensures Limit(r) == limit
    ensures GetRef(r) == read
  {
    SetLimit(OptionalTake(Some(OptionalTakeImpl.Unbounded(read))), limit)
  }

  /** `Takable::take_optional`, a synonym for `from_read` on any reader. */
  function TakeOptional(read: Cursors.Cursor, limit: Option<U64>): (r: OptionalTake)
    ensures Valid(r)
    ensures Limit(r) == limit
    ensures GetRef(r) == read
  {
    FromRead(read, limit)
  }

  /** `Read::read`: without a limit, exactly the wrapped reader's `read`; with
      a positive one, the wrapped reader's `read` into the first
      `min(len, limit)` bytes of the buffer, each byte counted against the
      limit; at limit zero, end of input. A failure is passed on and leaves the
      adapter as it was. */
  function Read(s: OptionalTake, len: nat, device: Device): (r: Outcome<OptionalTake, seq<byte>>)
    requires Valid(s)
    ensures Valid(r.next)
    ensures Limit(r.next).None? <==> Limit(s).None?
    ensures GetRef(r.next).Data() == GetRef(s).Data()
    ensures r.result.Err? ==> r.next == s
    ensures Limit(s).None? ==>
      var inner := Cursors.Read(GetRef(s), len, device);
      r.result == inner.result && GetRef(r.next) == inner.next
    ensures Limit(s).Some? && r.result.Ok? ==>
      && |r.result.value| <= Min(len, Limit(s).value)
      && Limit(r.next) == Some(Limit(s).value - |r.result.value|)
      && Cursors.Advances(GetRef(s), GetRef(r.next), r.result.value)
    ensures Limit(s).Some? && Limit(s).value > 0 ==>
      var inner := Cursors.Read(GetRef(s), Min(len, Limit(s).value), device);
      r.result == inner.result && GetRef(r.next) == inner.next
    ensures Limit(s) == Some(0) ==> r == Outcome(s, Ok([]))
  {
    match s.slot.value
    case Unbounded(read) =>
      var o := Cursors.Read(read, len, device);
      Outcome(OptionalTake(Some(OptionalTakeImpl.Unbounded(o.next))), o.result)
    case Bounded(take) =>
      var o := Takes.Read(take, len, device);
      Outcome(OptionalTake(Some(OptionalTakeImpl.Bounded(o.next))), o.result)
  }

  /** `BufRead::fill_buf`: the wrapped reader's view of its ready bytes, or its
      error; with a limit, the view is cut to at most `limit` bytes, and at
      limit zero it is empty without asking the wrapped reader. It changes
      nothing. */
  function FillBuf(s: OptionalTake, device: Device): (r: IoResult<seq<byte>>)
    requires Valid(s)
    ensures r.Ok? ==> r.value <= GetRef(s).rest
    ensures Limit(s).None? ==> r == Cursors.FillBuf(GetRef(s), device)
    ensures Limit(s).Some? && r.Ok? ==> |r.value| <= Limit(s).value
    ensures Limit(s).Some? && Limit(s).value > 0 ==>
      r == match Cursors.FillBuf(GetRef(s), device)
           case Err(e) => Err(e)
           case Ok(view) => Ok(view[..Min(|view|, Limit(s).value)])
    ensures Limit(s) == Some(0) ==> r == Ok([])
  {
    match s.slot.value
    case Unbounded(read) => Cursors.FillBuf(read, device)
    case Bounded(take) => Takes.FillBuf(take, device)
  }

  /** `BufRead::consume`: skips `amt` bytes of the wrapped reader and, with a
      limit, counts them against it; `io::Take` first cuts `amt` to the
      limit. */
  function Consume(s: OptionalTake, amt: nat): (r: OptionalTake)
    requires Valid(s)
    ensures Valid(r)
    ensures Limit(r).None? <==> Limit(s).None?
    ensures GetRef(r).Data() == GetRef(s).Data()
    ensures Limit(s).None? ==> GetRef(r) == Cursors.Consume(GetRef(s), amt)
    ensures Limit(s).Some? ==>
      var m := Limit(s).value;
      && Limit(r) == Some(m - Min(amt, m))
      && GetRef(r) == Cursors.Consume(GetRef(s), Min(amt, m))
  {
    match s.slot.value
    case Unbounded(read) => OptionalTake(Some(OptionalTakeImpl.Unbounded(Cursors.Consume(read, amt))))
    case Bounded(take) => OptionalTake(Some(OptionalTakeImpl.Bounded(Takes.Consume(take, amt))))
  }
}

=== FILE: properties.dfy ===
/** Properties of single adapter operations: how `set_limit` composes, that
    the adapter is always in exactly one of its two variants, that both ways
    of handing back the reader agree, and that peeking then consuming is the
    same as reading. */
module Properties {
  import opened IoTypes
  import Cursors
  import opened Io

  /** An adapter is determined by its limit and its wrapped reader: nothing
      else is observable. */
  lemma StateIsLimitAndReader(a: OptionalTake, b: OptionalTake)
    requires Valid(a) && Valid(b)
    requires Limit(a) == Limit(b) && GetRef(a) == GetRef(b)
    ensures a == b
  {
    match a.slot.value
    case Unbounded(_) =>
    case Bounded(ta) =>
      var tb := b.slot.value.take;
      assert ta.limit == tb.limit;
  }

  /** Only the last `set_limit` matters: a limit is replaced, never added to
      or otherwise combined with the one before. */
  lemma SetLimitLastWins(s: OptionalTake, first: Option<U64>, second: Option<U64>)
    requires Valid(s)
    ensures SetLimit(SetLimit(s, first), second) == SetLimit(s, second)
  {
    StateIsLimitAndReader(SetLimit(SetLimit(s, first), second), SetLimit(s, second));
  }

  /** Setting the same limit twice is the same as setting it once. */
  lemma SetLimitIdempotent(s: OptionalTake, limit: Option<U64>)
    requires Valid(s)
    ensures SetLimit(SetLimit(s, limit), limit) == SetLimit(s, limit)
  {
    SetLimitLastWins(s, limit, limit);
  }

  /** Setting the limit the adapter already has changes nothing; in
      particular clearing the limit of an unbounded adapter is a no-op. */
  lemma SetCurrentLimitIsNoop(s: OptionalTake)
    requires Valid(s)
    ensures SetLimit(s, Limit(s)) == s
    ensures Limit(s).None? ==> SetLimit(s, None) == s
  {
    StateIsLimitAndReader(SetLimit(s, Limit(s)), s);
  }

  /** With the slot filled the adapter is in exactly one variant; `limit`
      reports which, and `as_mut_take` finds the `io::Take` exactly when it is
      bounded. With the slot empty, both variant tests fail, which is why the
      `unreachable!()` arms of `set_limit` need the slot to be filled. */
  lemma ExactlyOneVariant(s: OptionalTake)
    ensures Valid(s) ==> IsRead(s) != IsTake(s)
    ensures Valid(s) ==> (Limit(s).None? <==> IsRead(s))
    ensures AsMutTake(s).Some? <==> Valid(s) && Limit(s).Some?
    ensures !Valid(s) ==> !IsRead(s) && !IsTake(s)
  {
  }

  /** `into_inner` hands back the very reader `get_ref` shows, in both
      variants: only the limit is dropped. */
  lemma IntoInnerIsGetRef(s: OptionalTake)
    requires Valid(s)
    ensures IntoInner(s) == GetRef(s)
    ensures IntoInner(SetLimit(s, None)) == IntoInner(s)
  {
  }

  /** Peeking with `fill_buf` and then consuming `k` of the bytes seen has the
      same effect on the limit and on the wrapped reader as a `read` of `k`
      bytes, and that read delivers exactly the bytes that were seen. */
  lemma FillThenConsumeIsRead(s: OptionalTake, device: Device, k: nat)
    requires Valid(s)
    requires FillBuf(s, device).Ok?
    requires k <= |FillBuf(s, device).value|
    ensures Consume(s, k) == Read(s, k, Whole).next
    ensures Read(s, k, Whole).result == Ok(FillBuf(s, device).value[..k])
  {
    var view := FillBuf(s, device).value;
    var c := GetRef(s);
    assert view <= c.rest;
    assert k <= |c.rest|;
    assert view[..k] == c.rest[..k];
    var o := Read(s, k, Whole);
    match Limit(s)
    case None =>
    case Some(m) =>
      if m == 0 {
        assert k == 0;
      } else {
        assert k <= m;
      }
      assert Min(k, m) == k;
      StateIsLimitAndReader(Consume(s, k), o.next);
  }
}

=== FILE: take.dfy ===
/** The standard library's `io::Take<T>`, which the adapter holds in its
    bounded state: the wrapped reader and the number of bytes it may still
    hand out. `read.take(limit)` is the constructor, `take.limit()` and
    `take.set_limit(limit)` read and replace `limit`, and `take.get_ref()` and
    `take.into_inner()` return `inner`. */
module Takes {
  import opened IoTypes
  import Cursors

  datatype Take = Take(inner: Cursors.Cursor, limit: U64)

  /** `Take::read`: at limit zero it reports end of input without asking the
      wrapped reader; otherwise it asks for at most `limit` bytes and counts
      whatever it is given against the limit. A failure changes nothing. */
  function Read(t: Take, len: nat, device: Device): (r: Outcome<Take, seq<byte>>)
    ensures t.limit == 0 ==> r == Outcome(t, Ok([]))
    ensures t.limit > 0 ==> (r.result.Err? <==> device.Broken?)
    ensures r.result.Err? ==> r.next == t
    ensures r.result.Ok? ==>
      && |r.result.value| <= Min(len, t.limit)
      && r.next.limit == t.limit - |r.result.value|
      && Cursors.Advances(t.inner, r.next.inner, r.result.value)
    ensures r.next.inner.Data() == t.inner.Data()
    ensures t.limit > 0 ==>
      var inner := Cursors.Read(t.inner, Min(len, t.limit), device);
      r.result == inner.result && r.next.inner == inner.next
    ensures t.limit > 0 && device.Whole? ==>
      r.result.Ok? && |r.result.value| == Min(Min(len, t.limit), |t.inner.rest|)
  {
    if t.limit == 0 then Outcome(t, Ok([]))
    else
      var max := Min(len, t.limit);
      var o := Cursors.Read(t.inner, max, device);
      match o.result
      case Err(e) => Outcome(t, Err(e))
      case Ok(data) => Outcome(Take(o.next, t.limit - |data|), Ok(data))
  }

  /** `Take::fill_buf`: the wrapped reader's view, cut to at most `limit`
      bytes; at limit zero an empty view, without asking the wrapped reader. */
  function FillBuf(t: Take, device: Device): (r: IoResult<seq<byte>>)
    ensures t.limit == 0 ==> r == Ok([])
    ensures t.limit > 0 ==> (r.Err? <==> device.Broken?)
    ensures r.Ok? ==> |r.value| <= t.limit && r.value <= t.inner.rest
    ensures t.limit > 0 && Cursors.FillBuf(t.inner, device).Ok? ==>
      var view := Cursors.FillBuf(t.inner, device).value;
      r == Ok(view[..Min(|view|, t.limit)])
  {
    if t.limit == 0 then Ok([])
    else
      match Cursors.FillBuf(t.inner, device)
      case Err(e) => Err(e)
      case Ok(view) => Ok(view[..Min(|view|, t.limit)])
  }

  /** `Take::consume`: the amount is first cut to `limit`, then counted
      against the limit and skipped in the wrapped reader. */
  function Consume(t: Take, amt: nat): (r: Take)
    ensures r.limit == t.limit - Min(amt, t.limit)
    ensures r.inner == Cursors.Consume(t.inner, Min(amt, t.limit))
  {
    var amt := Min(amt, t.limit);
    Take(Cursors.Consume(t.inner, amt), t.limit - amt)
  }
}

=== FILE: traces.dfy ===
/** Properties of whole sessions with the adapter: any series of calls keeps
    the slot filled and never loses or repeats a byte of the wrapped reader;
    a series of reads under a limit never delivers more than the limit and
    stops for good at zero; and without a limit the adapter reads exactly as
    the bare reader would. */
module Traces {
  import opened IoTypes
  import Cursors
  import opened Io

  /** One `read` into a buffer of `len` bytes, served by `device`. */
  datatype Request = Request(len: nat, device: Device)

  /** One call a caller can make on the adapter. */
  datatype Op =
    | SetLimitOp(limit: Option<U64>)
    | ReadOp(req: Request)
    | FillBufOp
    | ConsumeOp(amt: nat)

  /** The adapter after one call. A failed read leaves it as it was. */
  function Apply(s: OptionalTake, op: Op): (r: OptionalTake)
    requires Valid(s)
    ensures Valid(r)
    ensures GetRef(r).Data() == GetRef(s).Data()
    ensures GetRef(s).consumed <= GetRef(r).consumed
  {
    match op
    case SetLimitOp(limit) => SetLimit(s, limit)
    case ReadOp(req) => Read(s, req.len, req.device).next
    case FillBufOp => s  // a peek changes neither the limit nor the reader
    case ConsumeOp(amt) => Consume(s, amt)
  }

  /** The adapter after a series of calls: whatever the calls, its slot is
      filled afterwards, the wrapped reader still holds the same bytes, and
      its position has only moved forward. */
  function Run(s: OptionalTake, ops: seq<Op>): (r: OptionalTake)
    requires Valid(s)
    ensures Valid(r)
    ensures GetRef(r).Data() == GetRef(s).Data()
    ensures GetRef(s).consumed <= GetRef(r).consumed
    decreases |ops|
  {
    if ops == [] then s else Run(Apply(s, ops[0]), ops[1..])
  }

  /** A series of reads on the adapter, with each read's result recorded;
      failed reads deliver nothing. The bytes delivered are exactly the bytes
      the wrapped reader moved past, and under a limit they are counted
      against it, so they never exceed it. */
  function ReadAll(s: OptionalTake, reqs: seq<Request>): (r: Drained<OptionalTake>)
    requires Valid(s)
    ensures |r.results| == |reqs|
    ensures Valid(r.next)
    ensures Limit(r.next).None? <==> Limit(s).None?
    ensures Cursors.Advances(GetRef(s), GetRef(r.next), r.delivered)
    ensures Limit(s).Some? ==>
      && |r.delivered| <= Limit(s).value
      && Limit(r.next) == Some(Limit(s).value - |r.delivered|)
    decreases |reqs|
  {
    if reqs == [] then Drained(s, [], [])
    else
      var o := Read(s, reqs[0].len, reqs[0].device);
      var data := if o.result.Ok? then o.result.value else [];
      var tail := ReadAll(o.next, reqs[1..]);
      Cursors.AdvancesNothing(GetRef(s));
      Cursors.AdvancesCompose(GetRef(s), GetRef(o.next), GetRef(tail.next), data, tail.delivered);
      Drained(tail.next, data + tail.delivered, [o.result] + tail.results)
  }

  /** The same series of reads on the bare wrapped reader. */
  function DrainCursor(c: Cursors.Cursor, reqs: seq<Request>): (r: Drained<Cursors.Cursor>)
    ensures |r.results| == |reqs|
    ensures Cursors.Advances(c, r.next, r.delivered)
    decreases |reqs|
  {
    if reqs == [] then Drained(c, [], [])
    else
      var o := Cursors.Read(c, reqs[0].len, reqs[0].device);
      var data := if o.result.Ok? then o.result.value else [];
      var tail := DrainCursor(o.next, reqs[1..]);
      Cursors.AdvancesNothing(c);
      Cursors.AdvancesCompose(c, o.next, tail.next, data, tail.delivered);
      Drained(tail.next, data + tail.delivered, [o.result] + tail.results)
  }

  /** Once the limit is used up, every further read returns `Ok` with zero
      bytes, whatever the device would do, and changes nothing, until the
      limit is set again. */
  lemma {:induction false} ExhaustedStaysExhausted(s: OptionalTake, reqs: seq<Request>)
    requires Valid(s) && Limit(s) == Some(0)
    ensures ReadAll(s, reqs).next == s
    ensures ReadAll(s, reqs).delivered == []
    ensures forall i :: 0 <= i < |reqs| ==> ReadAll(s, reqs).results[i] == Ok([])
    decreases |reqs|
  {
    if reqs != [] {
      ExhaustedStaysExhausted(s, reqs[1..]);
      var tail := ReadAll(s, reqs[1..]);
      assert ReadAll(s, reqs).results == [Ok([])] + tail.results;
    }
  }

  /** Without a limit, every read of a series returns exactly what the same
      read on the bare reader returns, errors included, and the series leaves
      the reader exactly where the bare reader would be. */
  lemma {:induction false} UnboundedIsPassthrough(s: OptionalTake, reqs: seq<Request>)
    requires Valid(s) && Limit(s).None?
    ensures ReadAll(s, reqs).results == DrainCursor(GetRef(s), reqs).results
    ensures ReadAll(s, reqs).delivered == DrainCursor(GetRef(s), reqs).delivered
    ensures GetRef(ReadAll(s, reqs).next) == DrainCursor(GetRef(s), reqs).next
    decreases |reqs|
  {
    if reqs != [] {
      var o := Read(s, reqs[0].len, reqs[0].device);
      UnboundedIsPassthrough(o.next, reqs[1..]);
    }
  }

  /** Clearing the limit, after any number of reads under it, leaves no
      trace of it: from then on the adapter reads as the bare reader at its
      current position does. */
  lemma ClearedLimitIsPassthrough(s: OptionalTake, before: seq<Request>, after: seq<Request>)
    requires Valid(s)
    ensures var cleared := SetLimit(ReadAll(s, before).next, None);
      && ReadAll(cleared, after).results == DrainCursor(GetRef(cleared), after).results
      && ReadAll(cleared, after).delivered == DrainCursor(GetRef(cleared), after).delivered
      && GetRef(ReadAll(cleared, after).next) == DrainCursor(GetRef(cleared), after).next
  {
    UnboundedIsPassthrough(SetLimit(ReadAll(s, before).next, None), after);
  }

  /** A limit set after reads have used up part of an earlier one is the new
      budget in full: the bytes already read are not subtracted from it. */
  lemma NewLimitIsNotCumulative(s: OptionalTake, n: U64, m: U64, before: seq<Request>, after: seq<Request>)
    requires Valid(s)
    ensures var reset := SetLimit(ReadAll(SetLimit(s, Some(n)), before).next, Some(m));
      && Limit(reset) == Some(m)
      && |ReadAll(reset, after).delivered| <= m
  {
  }

  /** `into_inner` after any session returns the reader it was built on,
      holding the same bytes, with its position moved exactly past the bytes
      that reads delivered. */
  lemma IntoInnerAfterReads(read: Cursors.Cursor, limit: Option<U64>, reqs: seq<Request>)
    ensures var r := ReadAll(FromRead(read, limit), reqs);
      && IntoInner(r.next).consumed == read.consumed + r.delivered
      && IntoInner(r.next).Data() == read.Data()
  {
    var s := FromRead(read, limit);
    var r := ReadAll(s, reqs);
    var c := GetRef(r.next);
    assert IntoInner(r.next) == c;
    assert Cursors.Advances(read, c, r.delivered);
    calc {
      c.Data();
      c.consumed + c.rest;
      (read.consumed + r.delivered) + c.rest;
      read.consumed + (r.delivered + c.rest);
      read.Data();
    }
  }
}

=== FILE: types.dfy ===
/** Vocabulary shared by the reader model: bytes, Rust's `u64`, `Option`,
    `io::Result`, and the behaviour of the device behind a reader on one call. */
module IoTypes {

  /** An octet, as carried by Rust's `u8`. */
  type byte = b: int | 0 <= b < 0x100

  /** Rust's `u64`, the width of every limit the adapter keeps. */
  type U64 = n: nat | n < 0x1_0000_0000_0000_0000

  /** Rust's `Option`. */
  datatype Option<+T> = None | Some(value: T)

  /** An error raised by the wrapped reader. The adapter never inspects it,
      so only its identity matters. */
  datatype IoError = IoError(code: int)

  /** Rust's `io::Result`. */
  datatype IoResult<+T> = Ok(value: T) | Err(error: IoError)

  /** The new state of a reader after one call, and what the call returned. */
  datatype Outcome<+S, +T> = Outcome(next: S, result: IoResult<T>)

  /** The state of a reader after a series of reads, every byte those reads
      handed to the caller, in order, and what each read returned. */
  datatype Drained<+S> = Drained(next: S, delivered: seq<byte>, results: seq<IoResult<seq<byte>>>)

  /** What the device behind the wrapped reader does when it is asked for
      bytes on one call: hand over as many as were asked for and are left
      (`Whole`, as an in-memory slice does), hand over at most `cap` of them
      (`Short`, a short read), or fail (`Broken`). Real I/O is replaced by
      this parameter. */
  datatype Device = Whole | Short(cap: nat) | Broken(error: IoError)

  function Min(a: int, b: int): (m: int)
    ensures m <= a && m <= b
    ensures m == a || m == b
  {
    if a <= b then a else b
  }
}
